=== FILE: README.md ===
# DMI weather-observation cache, modelled in Dafny

This project models the date-keyed cache of daily DMI weather observations in
`dmi_cache.py`. The cache directory holds one file per day, named
`<YYYY-MM-DD>.json`. The cache has three parts:

- **Day store** (`cache_store.dfy`, class `CacheStore.DayStore`). The class
  models the cache directory. `dirExists` records whether the directory exists.
  `files` maps each entry name to its content. The class has the operations
  that create the directory, build a day's path, check whether a day is cached
  and save a day. Saving overwrites the day's file in place.
- **Reconciliation pass** (`reconciler.dfy`, `Reconciler.UpdateDmiCache`). The
  pass walks every day from the configured start date to today, in ascending
  order. It skips days whose file is present. It fetches each missing day once
  and saves the document when one arrives. The HTTP fetch is an oracle
  `fetch: Date -> Option<P>`, where `None` stands for any failure. The start
  date (`None` when unset or empty) and today's date are parameters. The loop
  is proved against the specification functions `PassFetches` and
  `PassFiles`. The lemmas in `pass_properties.dfy` prove gap filling, failure
  isolation, retry on the next pass and idempotence about those functions.
  This is the pass as intended. As written, the pass raises at its first
  missing day (see "Findings"); `Reconciler.UpdateDmiCacheAsWritten` models
  that behaviour.
- **Range query** (`CacheStore.DayStore.GetCachedDateRange`). It scans the
  directory's names and keeps those that end in `.json` and whose stem
  `strptime(..., "%Y-%m-%d")` accepts. It returns the earliest and latest of
  those dates, or `None`.

Supporting modules:

- `dates.dfy`: proleptic Gregorian dates in the years 1–9999, chronological
  order, the one-day step and the window `[lo, hi]`.
- `date_names.dfy`: the `%Y-%m-%d` formatter, the `.json` suffix and stem, and
  an exact model of `strptime` for this format.

Names the range scan accepts: the name must end in `.json`. Its stem must be
four ASCII digits, then `-`, then a month, then `-`, then a day. The month is
one of `1`–`9`, `01`–`09`, `10`–`12`. The day is one of `1`–`9`, `01`–`09`,
`" 1"`–`" 9"` (a space before the digit) or `10`–`31`. The three numbers must
form a real calendar date with a year of at least 1. This follows the
patterns CPython's `_strptime` uses for `%Y`, `%m` and `%d`.

Behaviours of the code that the model keeps:

- Saving a day does not create the directory. Only the pass creates it, with
  `_ensure_cache_dir`, before its loop. A save into a missing directory fails;
  the model returns `ok == false` and writes nothing.
- A storage error during a save is not logged and skipped. It propagates out
  of the pass. The model's directory always accepts a write once it exists
  (see "Left out").
- Only canonical names count as cached days for the existence check. The range
  scan also accepts unpadded names such as `2024-1-5.json`
  (`CacheStore.UnpaddedNameCountsOnlyInRange`). For such a name the range
  reports 2024-01-05, but the pass still fetches that day.
- When today is `date.max` (9999-12-31), the step after the last day raises
  `OverflowError`. This happens after all of the pass's writes. The pass
  reports it as the error `DateOverflow`.
- `os.path.isdir` and `os.makedirs` treat an empty `DMI_CACHE_DIR` as no
  directory: `os.path.isdir("")` is false,
  so the range query returns `None`, and `os.makedirs("")` raises
  `FileNotFoundError`, so a pass with a start date raises before its loop.
  The pass reports it as the error `NoCacheDir`.
- `_fetch_dmi_day` is annotated for a `datetime`, but the pass hands it a
  `datetime.date`. Its log line calls `date.date()`, which a `datetime.date`
  does not have. The `AttributeError` is caught, and the handler's log line
  calls `date.date()` again, so a second `AttributeError` escapes. As written,
  the pass therefore raises at the first missing day of its window, before
  any request, with no file written. The thread's loop has no handler, so the
  worker thread ends there. This is listed under "Findings". The intended
  pass fetches that day and goes on.

## Model

| member | source | states |
|---|---|---|
| `Dates.NextDay` | dmi_cache.py:65 | `current + timedelta(days=1)` is a valid date, strictly later, and no valid date lies strictly between the two |
| `Dates.WindowMembers` | dmi_cache.py:56-59 | a date is visited by the pass loop iff it is a valid date with start <= date <= today |
| `Dates.WindowAscending` | dmi_cache.py:58-65 | the loop visits valid dates in strictly ascending order, so each date at most once |
| `Dates.WindowLength` | dmi_cache.py:58-65 | a window that starts k days before today holds exactly k + 1 dates |
| `DateNames.FormatDate` | dmi_cache.py:21 | `strftime('%Y-%m-%d')` is ten characters with `-` at positions 4 and 7 and digits elsewhere, and its digit pairs read back as the date's year, month and day |
| `DateNames.CacheFileName` | dmi_cache.py:21 | a day's file name ends in `.json` and its stem is the day's `%Y-%m-%d` text |
| `DateNames.EndsWithJson` | dmi_cache.py:95 | a name passes `endswith(".json")` iff it is some root followed by `.json` |
| `DateNames.Stem` | dmi_cache.py:98 | `splitext(name)[0]` is a prefix of the name: either the name without `.json`, when that root is not all dots, or the whole name, when it is |
| `DateNames.FormatParseRoundTrip` | dmi_cache.py:98 | `strptime` of `strftime('%Y-%m-%d')` gives back the same date |
| `DateNames.CacheFileNameRoundTrip` | dmi_cache.py:21 | the range scan's decoding of a day's cache file name (suffix test, `splitext`, `strptime`) gives back that day |
| `DateNames.CacheFileNameInjective` | dmi_cache.py:20-21 | two days have the same cache file name iff they are the same day |
| `DateNames.ParseStem` | dmi_cache.py:98 | a stem that `strptime` accepts denotes a valid calendar date |
| `DateNames.NameDate` | dmi_cache.py:95-101 | a directory name that the range scan accepts denotes a valid calendar date |
| `DateNames.UnpaddedStemParses` | dmi_cache.py:98 | `strptime` also accepts unpadded or space-padded months and days, which are not the formatter's output |
| `DateNames.NonDateStemsRejected` | dmi_cache.py:97-101 | `notes`, Feb 29 of a common year, Feb 30, year 0, month 13 and trailing characters all raise `ValueError` |
| `DateNames.StemOfPlainName` | dmi_cache.py:98 | `os.path.splitext` strips exactly the `.json` suffix from a name that does not start with a dot |
| `CacheStore.DayStore.constructor` | dmi_cache.py:10 | the store is the directory `DMI_CACHE_DIR` with the given existence and entries; an absent directory has no entries, and an empty name is never an existing directory |
| `CacheStore.JoinPath` | dmi_cache.py:21 | `os.path.join` yields the directory, then a separator unless the directory is empty or already ends in one, then the file name |
| `CacheStore.DayStore.CacheFilePath` | dmi_cache.py:20-21 | the path ends with `<YYYY-MM-DD>.json` for the day and starts with the cache directory |
| `CacheStore.DayStore.IsDayCached` | dmi_cache.py:24-25 | a day whose file exists in the cache directory is one the range scan reports (an empty directory name has no entries; see "Left out") |
| `CacheStore.DayStore.EnsureCacheDir` | dmi_cache.py:16-17 | it succeeds iff the directory name is not empty; on success the directory exists afterwards, whether or not it existed before; on failure (`FileNotFoundError`) nothing is created; the entries never change |
| `CacheStore.DayStore.SaveDayCache` | dmi_cache.py:43-46 | the day becomes cached and its file holds the new document, replacing any earlier one; every other entry is unchanged; a missing directory makes the save fail and change nothing |
| `CacheStore.ParsedDatesInsert` | dmi_cache.py:94-101 | each listed name adds its parsed date to the scanned set, or nothing when it does not end in `.json` or its stem does not parse |
| `CacheStore.CachedDayIsParsed` | dmi_cache.py:94-99 | the file written for a day is recognised by the range scan as that day |
| `CacheStore.RangeExample` | dmi_cache.py:94-106 | files for 2024-01-05 and 2024-01-09 plus `notes.json` scan to exactly {2024-01-05, 2024-01-09}; the gap does not narrow the range |
| `CacheStore.NotesIgnored` | dmi_cache.py:95-101 | a `notes.json` entry adds nothing to the scanned dates |
| `CacheStore.UnpaddedNameCountsOnlyInRange` | dmi_cache.py:94-101 | `2024-1-5.json` counts as 2024-01-05 for the range, but it is not that day's cache file |
| `CacheStore.Earliest` | dmi_cache.py:106 | `min(dates)` is an element of the list and no later than any element |
| `CacheStore.Latest` | dmi_cache.py:106 | `max(dates)` is an element of the list and no earlier than any element |
| `CacheStore.DayStore.GetCachedDateRange` | dmi_cache.py:82-106 | `None` when the directory is absent or its name is empty; `None` iff no name qualifies; otherwise (min, max) with both in the scanned set, min <= max and every scanned date between them |
| `Reconciler.MissingDays` | dmi_cache.py:59-61 | the kept days are exactly the window's days whose file is absent |
| `Reconciler.Fills` | dmi_cache.py:61-64 | every fetched day whose fetch returned a document gets its file holding that document, and every written file is the file of such a day |
| `Reconciler.FillsMissLaterDay` | dmi_cache.py:59-65 | writes for earlier days never create a later day's file, so "cached when reached" equals "cached when the pass began" |
| `Reconciler.FetchesFront` | dmi_cache.py:59-65 | the fetches from a day on are that day when its file is missing, followed by the fetches from the next day on; at `date.max` the day is the window's last |
| `Reconciler.VisitDay` | dmi_cache.py:60-64 | one loop iteration: the fetch is issued iff the day's file is missing, and the file is added exactly when that fetch returns a document; nothing else changes |
| `Reconciler.VisitWindow` | dmi_cache.py:58-65 | the loop over an existing directory: the fetches issued are `PassFetches` in order, the files afterwards are `PassFiles`, and `OverflowError` is raised iff the window is non-empty and ends at `date.max` |
| `Reconciler.UpdateDmiCache` | dmi_cache.py:49-65 | the pass as intended. No start date: no fetch and nothing changes. Empty directory name: `FileNotFoundError`, no fetch and nothing changes. Otherwise the directory exists, the fetches issued are `PassFetches` in order, the files are `PassFiles`, and `OverflowError` is raised iff the window is non-empty and ends at `date.max`; no other error is raised |
| `Reconciler.AsWrittenError` | dmi_cache.py:33-39 | as written, a pass raises only when a start date is set; its error names the first missing window day if there is one, otherwise it is the `OverflowError` at `date.max` or nothing |
| `Reconciler.UpdateDmiCacheAsWritten` | dmi_cache.py:49-65 | the pass as written: it leaves every entry unchanged; without a start date it raises nothing; with a start date and an empty directory name it raises `FileNotFoundError`; with a start date and a non-empty name it creates the directory; whenever the name is not empty it raises exactly `AsWrittenError` of the entries it started with |
| `PassProperties.FetchesExactlyTheMissingDays` | dmi_cache.py:56-65 | a pass fetches exactly the days in [start, today] whose file was absent, in strictly ascending order, each once |
| `PassProperties.StartAfterTodayFetchesNothing` | dmi_cache.py:59 | a start after today gives no fetch and no file change (the pass still creates the directory) |
| `PassProperties.KeepsPresentFiles` | dmi_cache.py:60-64 | no file that was present is removed or altered by a pass |
| `PassProperties.AddsOnlyFetchedDocuments` | dmi_cache.py:60-64 | every file a pass adds belongs to a day it fetched whose fetch returned a document, and every such day's file holds that document |
| `PassProperties.FailedDayStaysAbsent` | dmi_cache.py:33-40 | a missing day whose fetch fails is still absent after the pass |
| `PassProperties.SuccessfulDaysCached` | dmi_cache.py:59-65 | every window day whose fetch succeeded or that was already cached is cached after the pass, whatever the other days' fetches did |
| `PassProperties.NextPassRetriesFailures` | dmi_cache.py:59-65 | the next pass over the same window fetches exactly the days whose fetch failed in this pass |
| `PassProperties.SecondPassIsNoOp` | dmi_cache.py:59-65 | after a pass in which every fetch it issued succeeded, a second pass issues no fetch and leaves the files unchanged |
| `PassProperties.CachedWindowNoFetch` | dmi_cache.py:59-61 | a pass over a window whose every day is cached issues no fetch |
| `PassProperties.NoFetchNoChange` | dmi_cache.py:59-64 | a pass that issues no fetch leaves the files unchanged |
| `PassProperties.FailingUpstreamLeavesStoreEmpty` | dmi_cache.py:56-65 | with start = today - k days, an empty directory and an upstream that always fails, the pass issues k + 1 fetches and writes nothing |
| `PassProperties.AsWrittenStopsAtFirstGap` | dmi_cache.py:33-39 | as written, a pass raises `AttributeError` iff some window day's file is missing, and the day it raises at is missing while every earlier window day is cached |
| `PassProperties.FirstMissingIsEarliest` | dmi_cache.py:59-61 | the first fetch of a pass is a missing window day, and every earlier window day is cached |
| `PassProperties.AsWrittenCrashExample` | dmi_cache.py:34 | with an empty directory and start = today = 2024-01-05, the pass as written raises at 2024-01-05, while the intended pass fetches that day and stores its document |
| `PassProperties.LeapWindowExample` | dmi_cache.py:65 | stepping from 2024-02-27 visits 02-28, 02-29 and 03-01 |

## Left out

- `_worker` and `start_dmi_cache_worker` (a daemon thread that runs a pass every hour, forever) are left out because they are concurrency and scheduling. Each iteration is one `UpdateDmiCache` pass. As written, the first exception a pass raises ends the thread, since the loop has no handler. `NextPassRetriesFailures` and `SecondPassIsNoOp` describe two consecutive passes.
- The HTTP request in `_fetch_dmi_day` is left out: the URL, the `datetime` timestamp parameter, the API key and the 30-second timeout. Only its result is kept, as the `fetch` oracle. In the intended pass, any exception, non-2xx status or bad JSON body becomes `None`. The pass as written never reaches the request (see "Findings").
- JSON serialisation is left out. The payload is an opaque type parameter `P`, and a saved file holds the document itself.
- Environment variables and `datetime.utcnow()` become parameters. Parsing `DMI_START_CACHE_DATE` with `fromisoformat` is not modelled, including its `ValueError` on a malformed value. The pass takes the parsed date, and `None` stands for an unset or empty variable.
- Log output (`print`) is left out. The arguments of the two log lines in `_fetch_dmi_day` are what raise in the pass as written; `UpdateDmiCacheAsWritten` keeps that effect as its error result.
- `CacheStore.DayStore.IsDayCached` and `CacheStore.DayStore.SaveDayCache` with an empty directory name: in the source, `os.path.join("", name)` is `name`, so their paths point into the working directory, where a file can exist and a save succeeds. The model gives the empty name no entries, so `IsDayCached` is false and `SaveDayCache` fails. The pass never reaches them with an empty name, because `_ensure_cache_dir` raises first.
- Filesystem faults other than an empty directory name are left out: `os.makedirs` failing because a non-directory occupies the path, and permission or disk-full errors on write. In the source these propagate out of the pass.
- The directory's entries are modelled as name-to-content pairs. Files and subdirectories are not distinguished; `os.path.exists` is true for both.
- `DateNames.ParseStem`: Python's `\d` also matches non-ASCII decimal digits. The model accepts ASCII digits only.
- `DateNames.FormatDate`: the model always pads the year to four digits. Some C libraries print years below 1000 without padding.
- `app.py`, `functions.py` and `minecraft_capture.py` are not part of this model (dashboard, electricity-meter and PV-simulation clients, screen capture).

## Findings

| source | as written | input that shows it | evidently intended | confidence | as-written member | corrected member |
|---|---|---|---|---|---|---|
| dmi_cache.py:34 | the log line calls `date.date()` on the `datetime.date` the pass hands over; the `except` handler at line 39 does the same, so `AttributeError` escapes; the pass raises at its first missing day, before any request, with nothing written | a cache directory with no entries and start = today = 2024-01-05 (`PassProperties.AsWrittenCrashExample`) | log the date itself, make the request, turn any failure into `None` and go on with the next day | high; not executed | `Reconciler.UpdateDmiCacheAsWritten` | `Reconciler.UpdateDmiCache` |

=== FILE: cache_store.dfy ===
/**
 The day store: the cache directory, holding one `<YYYY-MM-DD>.json` file
 per cached day, and the operations on it — creating the directory, the
 path and existence check of a day's file, saving a day, and the scan that
 reports the earliest and latest cached day.
 */
module CacheStore {

  import opened Wrappers
  import opened Dates
  import opened DateNames

  /**
   `os.path.join(dir, name)` for a relative `name`: a separator is inserted
   unless `dir` is empty or already ends with one.
   */
  function JoinPath(dir: string, name: string): (path: string)
    ensures |path| >= |name| && path[|path| - |name|..] == name
    ensures dir != [] && dir[|dir| - 1] != '/' ==> path[..|path| - |name|] == dir + "/"
    ensures dir == [] || dir[|dir| - 1] == '/' ==> path[..|path| - |name|] == dir
  {
    if dir == [] || dir[|dir| - 1] == '/' then dir + name else dir + "/" + name
  }

  /**
   The dates the range scan recognises among the names of a directory: those
   of names ending in `.json` whose stem `strptime` accepts.
   */
  ghost function ParsedDates(names: set<string>): (dates: set<Date>)
    ensures forall d :: d in dates ==> ValidDate(d)
  {
    set n | n in names && NameDate(n).Some? :: NameDate(n).value
  }

  /** Adding one name to a directory adds at most that name's date. */
  lemma ParsedDatesInsert(names: set<string>, n: string)
    ensures ParsedDates(names + {n}) ==
      if NameDate(n).Some? then ParsedDates(names) + {NameDate(n).value}
      else ParsedDates(names)
  {
  }

  /** A day whose cache file is present is seen by the range scan. */
  lemma CachedDayIsParsed(names: set<string>, d: Date)
    requires ValidDate(d) && CacheFileName(d) in names
    ensures d in ParsedDates(names)
  {
    CacheFileNameRoundTrip(d);
  }

  lemma ParsedFirstName()
    ensures ParsedDates({"2024-01-05.json"}) == {Date(2024, 1, 5)}
  {
    assert CacheFileName(Date(2024, 1, 5)) == "2024-01-05.json";
    CacheFileNameRoundTrip(Date(2024, 1, 5));
    ParsedDatesInsert({}, "2024-01-05.json");
    assert {"2024-01-05.json"} == {} + {"2024-01-05.json"};
  }

  lemma ParsedSecondName(names: set<string>)
    ensures ParsedDates(names + {"2024-01-09.json"}) == ParsedDates(names) + {Date(2024, 1, 9)}
  {
    assert CacheFileName(Date(2024, 1, 9)) == "2024-01-09.json";
    CacheFileNameRoundTrip(Date(2024, 1, 9));
    ParsedDatesInsert(names, "2024-01-09.json");
  }

  lemma NotesIgnored(names: set<string>)
    ensures ParsedDates(names + {"notes.json"}) == ParsedDates(names)
  {
    StemOfPlainName("notes.json");
    assert "notes.json"[..5] == "notes";
    NonDateStemsRejected();
    ParsedDatesInsert(names, "notes.json");
  }

  /**
   A directory with the files of 2024-01-05 and 2024-01-09 and a `notes.json`
   yields exactly those two dates: the gap on 2024-01-07 does not narrow the
   range and `notes.json` is ignored.
   */
  lemma RangeExample()
    ensures ParsedDates({"2024-01-05.json", "2024-01-09.json", "notes.json"}) == {Date(2024, 1, 5), Date(2024, 1, 9)}
  {
    var one: set<string> := {"2024-01-05.json"};
    var two := one + {"2024-01-09.json"};
    var three := two + {"notes.json"};
    ParsedFirstName();
    ParsedSecondName(one);
    NotesIgnored(two);
    assert three == {"2024-01-05.json", "2024-01-09.json", "notes.json"};
  }

  /**
   An unpadded name such as `2024-1-5.json` counts for the range scan, yet the
   day 2024-01-05 is not cached: its file is `2024-01-05.json`.
   */
  lemma UnpaddedNameCountsOnlyInRange()
    ensures Date(2024, 1, 5) in ParsedDates({"2024-1-5.json"})
    ensures CacheFileName(Date(2024, 1, 5)) !in {"2024-1-5.json"}
  {
    UnpaddedStemParses();
    StemOfPlainName("2024-1-5.json");
    assert "2024-1-5.json"[..8] == "2024-1-5";
    ParsedDatesInsert({}, "2024-1-5.json");
    assert {"2024-1-5.json"} == {} + {"2024-1-5.json"};
  }

  /** The earliest date of a non-empty list (`min(dates)`). */
  function Earliest(ds: seq<Date>): (m: Date)
    requires ds != []
    ensures m in ds && forall d :: d in ds ==> NotAfter(m, d)
  {
    if |ds| == 1 then ds[0]
    else
      var m := Earliest(ds[1..]);
      assert forall d :: d in ds ==> d == ds[0] || d in ds[1..];
      if NotAfter(ds[0], m) then
        assert forall d :: d in ds[1..] ==> NotAfter(ds[0], d) by {
          forall d | d in ds[1..] ensures NotAfter(ds[0], d) { NotAfterTransitive(ds[0], m, d); }
        }
        ds[0]
      else m
  }

  /** The latest date of a non-empty list (`max(dates)`). */
  function Latest(ds: seq<Date>): (m: Date)
    requires ds != []
    ensures m in ds && forall d :: d in ds ==> NotAfter(d, m)
  {
    if |ds| == 1 then ds[0]
    else
      var m := Latest(ds[1..]);
      assert forall d :: d in ds ==> d == ds[0] || d in ds[1..];
      if NotAfter(m, ds[0]) then
        assert forall d :: d in ds[1..] ==> NotAfter(d, ds[0]) by {
          forall d | d in ds[1..] ensures NotAfter(d, ds[0]) { NotAfterTransitive(d, m, ds[0]); }
        }
        ds[0]
      else m
  }

  /**
   The cache directory `dir` (`DMI_CACHE_DIR`). `files` maps the name of
   each entry of the directory to its content; a day is cached when the file
   named after it is present. The entry named `n` stands for the file at
   `JoinPath(dir, n)`, so a day's entry is the one at `CacheFilePath(d)`.
   */
  class DayStore<P> {
    const dir: string
    var dirExists: bool
    var files: map<string, P>

    /**
     An absent directory has no entries, and the empty name is never an
     existing directory (`os.path.isdir("")` is false).
     */
    ghost predicate Valid()
      reads this
    {
      && (dir == [] ==> !dirExists)
      && (!dirExists ==> files == map[])
    }

    /**
     The cache directory `dir` as the process finds it: present with the
     given entries, or absent and so without entries. `os.path.isdir` and
     `os.makedirs` treat the empty name as no directory.
     */
    constructor (dir: string, dirExists: bool, files: map<string, P>)
      requires dir == [] ==> !dirExists
      requires !dirExists ==> files == map[]
      ensures Valid() && this.dir == dir && this.dirExists == dirExists && this.files == files
    {
      this.dir := dir;
      this.dirExists := dirExists;
      this.files := files;
    }

    /**
     `_cache_file_path(date)`: the directory joined with the day's file name,
     whose stem parses back to the day (`CacheFileNameRoundTrip`).
     */
    function CacheFilePath(d: Date): (path: string)
      requires ValidDate(d)
      ensures |path| >= 15 && path[|path| - 15..] == CacheFileName(d)
      ensures dir != [] && dir[|dir| - 1] != '/' ==> path[..|path| - 15] == dir + "/"
      ensures dir == [] || dir[|dir| - 1] == '/' ==> path[..|path| - 15] == dir
    {
      JoinPath(dir, CacheFileName(d))
    }

    /**
     `_is_day_cached(date)`: the day's file exists. A cached day is one the
     range scan reports.
     */
    predicate IsDayCached(d: Date)
      requires ValidDate(d)
      reads this
      ensures IsDayCached(d) ==> d in ParsedDates(files.Keys)
    {
      if CacheFileName(d) in files then
        CachedDayIsParsed(files.Keys, d);
        dirExists
      else false
    }

    /**
     `_ensure_cache_dir()`: `os.makedirs(dir, exist_ok=True)`. For the empty
     name `mkdir` fails and `FileNotFoundError` is raised, reported as
     `ok == false` with nothing created.
     */
    method EnsureCacheDir() returns (ok: bool)
      requires Valid()
      modifies this
      ensures Valid() && files == old(files)
      ensures ok <==> dir != []
      ensures ok ==> dirExists
      ensures !ok ==> dirExists == old(dirExists)
    {
      ok := dir != [];
      if ok {
        dirExists := true;
      }
    }

    /**
     `_save_day_cache(date, data)`: writes the day's file, replacing any
     earlier content. Opening a file in a missing directory raises; that is
     reported as `ok == false` with nothing written.
     */
    method SaveDayCache(d: Date, data: P) returns (ok: bool)
      requires Valid() && ValidDate(d)
      modifies this
      ensures Valid() && dirExists == old(dirExists)
      ensures ok == old(dirExists)
      ensures ok ==> IsDayCached(d) && files == old(files)[CacheFileName(d) := data]
      ensures !ok ==> files == old(files)
    {
      ok := dirExists;
      if ok {
        files := files[CacheFileName(d) := data];
      }
    }

    /**
     `get_cached_date_range()`: scans the directory's names, keeps the dates
     of those that end in `.json` and whose stem parses, and returns the
     earliest and latest of them, or `None` when the directory is absent or
     no name qualifies. The listing order does not matter.
     */
    method GetCachedDateRange() returns (r: Option<(Date, Date)>)
      requires Valid()
      ensures !dirExists || dir == [] ==> r == None
      ensures r == None <==> ParsedDates(files.Keys) == {}
      ensures r.Some? ==>
        && r.value.0 in ParsedDates(files.Keys)
        && r.value.1 in ParsedDates(files.Keys)
        && NotAfter(r.value.0, r.value.1)
        && forall d :: d in ParsedDates(files.Keys) ==> NotAfter(r.value.0, d) && NotAfter(d, r.value.1)
    {
      if !dirExists {
        return None;
      }
      var dates: seq<Date> := [];
      var unlisted := files.Keys;
      ghost var listed: set<string> := {};
      while unlisted != {}
        invariant unlisted + listed == files.Keys && unlisted !! listed
        invariant forall d :: d in dates <==> d in ParsedDates(listed)
        decreases unlisted
      {
        var name :| name in unlisted;
        unlisted := unlisted - {name};
        ParsedDatesInsert(listed, name);
        listed := listed + {name};
        if EndsWithJson(name) {
          var date := ParseStem(Stem(name));
          if date.Some? {
            dates := dates + [date.value];
          }
        }
      }
      if dates == [] {
        return None;
      }
      r := Some((Earliest(dates), Latest(dates)));
    }
  }
}

=== FILE: date_names.dfy ===
/**
 The cache's file names: `date.strftime('%Y-%m-%d') + ".json"` on the way
 in, and on the way back the `.json` suffix test, `os.path.splitext` and
 `datetime.strptime(stem, "%Y-%m-%d")`, restricted to ASCII characters.
 */
module DateNames {

  import opened Wrappers
  import opened Dates

  const JsonSuffix := ".json"

  predicate IsDigit(c: char) {
    '0' <= c <= '9'
  }

  function DigitValue(c: char): (v: int)
    requires IsDigit(c)
    ensures 0 <= v <= 9
  {
    c as int - '0' as int
  }

  function DigitChar(v: int): (c: char)
    requires 0 <= v <= 9
    ensures IsDigit(c) && DigitValue(c) == v
  {
    (v + '0' as int) as char
  }

  /** `n` as two zero-padded decimal digits (`%m`, `%d`). */
  function Pad2(n: int): (s: string)
    requires 0 <= n <= 99
  {
    [DigitChar(n / 10), DigitChar(n % 10)]
  }

  /** `n` as four zero-padded decimal digits (`%Y`). */
  function Pad4(n: int): (s: string)
    requires 0 <= n <= 9999
  {
    Pad2(n / 100) + Pad2(n % 100)
  }

  /**
   `date.strftime('%Y-%m-%d')`: ten characters, dashes at positions 4 and
   7, and digit pairs that read back as the year, the month and the day.
   */
  function FormatDate(d: Date): (s: string)
    requires ValidDate(d)
    ensures |s| == 10 && s[4] == '-' && s[7] == '-'
    ensures forall i :: 0 <= i < |s| && i != 4 && i != 7 ==> IsDigit(s[i])
    ensures TwoDigits(s[0], s[1]) * 100 + TwoDigits(s[2], s[3]) == d.year
    ensures TwoDigits(s[5], s[6]) == d.month && TwoDigits(s[8], s[9]) == d.day
  {
    TwoDigitsPad2(d.year / 100);
    TwoDigitsPad2(d.year % 100);
    TwoDigitsPad2(d.month);
    TwoDigitsPad2(d.day);
    Pad4(d.year) + "-" + Pad2(d.month) + "-" + Pad2(d.day)
  }

  /** The base name of the cache file of a day: `<YYYY-MM-DD>.json`. */
  function CacheFileName(d: Date): (name: string)
    requires ValidDate(d)
    ensures EndsWithJson(name) && Stem(name) == FormatDate(d)
  {
    FormatDate(d) + JsonSuffix
  }

  /** `name.endswith(".json")`: the name is some root followed by `.json`. */
  predicate EndsWithJson(name: string)
    ensures EndsWithJson(name) <==>
      |name| >= |JsonSuffix| && name[..|name| - |JsonSuffix|] + JsonSuffix == name
  {
    |name| >= |JsonSuffix| && name[|name| - |JsonSuffix|..] == JsonSuffix
  }

  /** Every character of `s` is a dot. */
  predicate AllDots(s: string) {
    forall i :: 0 <= i < |s| ==> s[i] == '.'
  }

  /**
   `os.path.splitext(name)[0]` for a listed name that ends in `.json`: the
   final dot starts the extension unless only dots precede it, in which case
   the whole name is the root.
   */
  function Stem(name: string): (stem: string)
    requires EndsWithJson(name)
    ensures stem <= name
    ensures stem != name ==> stem + JsonSuffix == name && !AllDots(stem)
    ensures stem == name ==> AllDots(name[..|name| - |JsonSuffix|])
  {
    var dot := |name| - |JsonSuffix|;
    if AllDots(name[..dot]) then name else name[..dot]
  }

  function TwoDigits(hi: char, lo: char): (v: int)
    requires IsDigit(hi) && IsDigit(lo)
    ensures 0 <= v <= 99
  {
    DigitValue(hi) * 10 + DigitValue(lo)
  }

  lemma TwoDigitsPad2(n: int)
    requires 0 <= n <= 99
    ensures TwoDigits(Pad2(n)[0], Pad2(n)[1]) == n
  {
  }

  /** A name that does not start with a dot loses exactly its `.json` suffix. */
  lemma StemOfPlainName(name: string)
    requires EndsWithJson(name) && |name| > |JsonSuffix| && name[0] != '.'
    ensures Stem(name) == name[..|name| - |JsonSuffix|]
  {
    assert name[..|name| - |JsonSuffix|][0] != '.';
  }

  /** `%Y` in `strptime`: exactly four digits. */
  function ParseYear(seg: string): (r: Option<int>)
    ensures r.Some? ==> 0 <= r.value <= 9999
  {
    if |seg| == 4 && IsDigit(seg[0]) && IsDigit(seg[1]) && IsDigit(seg[2]) && IsDigit(seg[3])
    then Some(TwoDigits(seg[0], seg[1]) * 100 + TwoDigits(seg[2], seg[3]))
    else None
  }

  /** `%m` in `strptime`: the pattern `1[0-2]|0[1-9]|[1-9]`. */
  function ParseMonth(seg: string): (r: Option<int>)
    ensures r.Some? ==> 1 <= r.value <= 12
  {
    if |seg| == 1 && '1' <= seg[0] <= '9' then Some(DigitValue(seg[0]))
    else if |seg| == 2 && seg[0] == '0' && '1' <= seg[1] <= '9' then Some(DigitValue(seg[1]))
    else if |seg| == 2 && seg[0] == '1' && '0' <= seg[1] <= '2' then Some(10 + DigitValue(seg[1]))
    else None
  }

  /** `%d` in `strptime`: the pattern `3[01]|[12]\d|0[1-9]|[1-9]| [1-9]`. */
  function ParseDay(seg: string): (r: Option<int>)
    ensures r.Some? ==> 1 <= r.value <= 31
  {
    if |seg| == 1 && '1' <= seg[0] <= '9' then Some(DigitValue(seg[0]))
    else if |seg| == 2 && (seg[0] == '0' || seg[0] == ' ') && '1' <= seg[1] <= '9' then Some(DigitValue(seg[1]))
    else if |seg| == 2 && (seg[0] == '1' || seg[0] == '2') && IsDigit(seg[1])
    then Some(DigitValue(seg[0]) * 10 + DigitValue(seg[1]))
    else if |seg| == 2 && seg[0] == '3' && (seg[1] == '0' || seg[1] == '1') then Some(30 + DigitValue(seg[1]))
    else None
  }

  /**
   `datetime.strptime(stem, "%Y-%m-%d").date()`, with `None` for the
   `ValueError` cases: the whole stem must match year, dash, month, dash,
   day, and the three numbers must form a real calendar date.
   */
  function ParseStem(stem: string): (r: Option<Date>)
    ensures r.Some? ==> ValidDate(r.value)
  {
    if |stem| < 8 || stem[4] != '-' then None
    else
      var rest := stem[5..];
      var monthLen := if rest[1] == '-' then 1 else if |rest| >= 3 && rest[2] == '-' then 2 else 0;
      if monthLen == 0 then None
      else
        var y := ParseYear(stem[..4]);
        var m := ParseMonth(rest[..monthLen]);
        var dd := ParseDay(rest[monthLen + 1..]);
        if y.None? || m.None? || dd.None? then None
        else
          var d := Date(y.value, m.value, dd.value);
          if ValidDate(d) then Some(d) else None
  }

  lemma ParseYearPad4(n: int)
    requires 0 <= n <= 9999
    ensures ParseYear(Pad4(n)) == Some(n)
  {
    TwoDigitsPad2(n / 100);
    TwoDigitsPad2(n % 100);
  }

  lemma ParseMonthPad2(n: int)
    requires 1 <= n <= 12
    ensures ParseMonth(Pad2(n)) == Some(n)
  {
  }

  lemma ParseDayPad2(n: int)
    requires 1 <= n <= 31
    ensures ParseDay(Pad2(n)) == Some(n)
  {
  }

  /**
   The day a directory entry stands for in the range scan: a name that ends
   in `.json` and whose stem `strptime` accepts.
   */
  function NameDate(name: string): (r: Option<Date>)
    ensures r.Some? ==> ValidDate(r.value)
  {
    if EndsWithJson(name) then ParseStem(Stem(name)) else None
  }

  /** Parsing the formatted date gives the date back. */
  lemma FormatParseRoundTrip(d: Date)
    requires ValidDate(d)
    ensures ParseStem(FormatDate(d)) == Some(d)
  {
    var s := FormatDate(d);
    var rest := s[5..];
    assert s[..4] == Pad4(d.year);
    assert rest[..2] == Pad2(d.month);
    assert rest[3..] == Pad2(d.day);
    assert rest[1] != '-' && rest[2] == '-';
    ParseYearPad4(d.year);
    ParseMonthPad2(d.month);
    ParseDayPad2(d.day);
  }

  /** Distinct days have distinct cache file names. */
  lemma CacheFileNameInjective(d: Date, e: Date)
    requires ValidDate(d) && ValidDate(e)
    ensures CacheFileName(d) == CacheFileName(e) <==> d == e
  {
    if CacheFileName(d) == CacheFileName(e) {
      FormatParseRoundTrip(d);
      FormatParseRoundTrip(e);
    }
  }

  /** A day's cache file name decodes back to that day. */
  lemma CacheFileNameRoundTrip(d: Date)
    requires ValidDate(d)
    ensures NameDate(CacheFileName(d)) == Some(d)
  {
    FormatParseRoundTrip(d);
  }

  /**
   `strptime` also accepts unpadded months and days: `2024-1-5` names the same
   day as `2024-01-05`, yet it is not that day's cache file stem.
   */
  lemma UnpaddedStemParses()
    ensures ParseStem("2024-1-5") == Some(Date(2024, 1, 5))
    ensures ParseStem("2024-01- 5") == Some(Date(2024, 1, 5))
    ensures FormatDate(Date(2024, 1, 5)) == "2024-01-05"
  {
    assert "2024-1-5"[5..][..1] == "1";
    assert "2024-1-5"[5..][2..] == "5";
    assert "2024-01- 5"[5..][..2] == "01";
    assert "2024-01- 5"[5..][3..] == " 5";
  }

  /** Stems that are not dates are rejected: `notes`, a 30th of February, year 0. */
  lemma NonDateStemsRejected()
    ensures ParseStem("notes") == None
    ensures ParseStem("2023-02-29") == None
    ensures ParseStem("2024-02-30") == None
    ensures ParseStem("0000-01-01") == None
    ensures ParseStem("2024-13-01") == None
    ensures ParseStem("2024-01-05x") == None
  {
    assert "2023-02-29"[5..][..2] == "02";
    assert "2023-02-29"[5..][3..] == "29";
    assert "2024-02-30"[5..][..2] == "02";
    assert "2024-02-30"[5..][3..] == "30";
    assert "0000-01-01"[..4] == "0000";
  }
}

=== FILE: dates.dfy ===
/**
 Calendar dates as Python's `datetime.date` represents them: proleptic
 Gregorian dates in the years 1 to 9999, ordered chronologically, with the
 one-day step that `timedelta(days=1)` performs.
 */
module Dates {

  import opened Wrappers

  datatype Date = Date(year: int, month: int, day: int)

  /** `datetime.MINYEAR` and `datetime.MAXYEAR`. */
  const MinYear := 1
  const MaxYear := 9999

  /** `date.max`: the last representable date; stepping past it overflows. */
  const MaxDate := Date(MaxYear, 12, 31)

  predicate IsLeapYear(y: int) {
    y % 4 == 0 && (y % 100 != 0 || y % 400 == 0)
  }

  function DaysInMonth(y: int, m: int): (n: int)
    requires 1 <= m <= 12
    ensures 28 <= n <= 31
  {
    if m == 2 then (if IsLeapYear(y) then 29 else 28)
    else if m == 4 || m == 6 || m == 9 || m == 11 then 30
    else 31
  }

  /** A date that `datetime.date(year, month, day)` accepts. */
  predicate ValidDate(d: Date) {
    && MinYear <= d.year <= MaxYear
    && 1 <= d.month <= 12
    && 1 <= d.day <= DaysInMonth(d.year, d.month)
  }

  /** Chronological order (`a < b` on Python dates). */
  predicate Before(a: Date, b: Date) {
    || a.year < b.year
    || (a.year == b.year && a.month < b.month)
    || (a.year == b.year && a.month == b.month && a.day < b.day)
  }

  /** `a <= b` on Python dates. */
  predicate NotAfter(a: Date, b: Date) {
    a == b || Before(a, b)
  }

  lemma NotAfterTransitive(a: Date, b: Date, c: Date)
    requires NotAfter(a, b) && NotAfter(b, c)
    ensures NotAfter(a, c)
  {
  }

  lemma BeforeTransitive(a: Date, b: Date, c: Date)
    requires Before(a, b) && Before(b, c)
    ensures Before(a, c)
  {
  }

  /** A number that grows with the date; used as a termination measure. */
  function Key(d: Date): int {
    d.year * 372 + d.month * 31 + d.day
  }

  lemma KeyOrder(a: Date, b: Date)
    requires ValidDate(a) && ValidDate(b)
    ensures Before(a, b) <==> Key(a) < Key(b)
    ensures a == b <==> Key(a) == Key(b)
  {
  }

  /** Nothing valid lies after `date.max`. */
  lemma MaxDateIsLast(d: Date)
    requires ValidDate(d)
    ensures NotAfter(d, MaxDate)
  {
  }

  /** The date one day later: `d + timedelta(days=1)`, defined below `date.max`. */
  function NextDay(d: Date): (r: Date)
    requires ValidDate(d) && d != MaxDate
    ensures ValidDate(r) && Before(d, r)
    ensures forall e :: ValidDate(e) && Before(d, e) ==> NotAfter(r, e)
  {
    if d.day < DaysInMonth(d.year, d.month) then Date(d.year, d.month, d.day + 1)
    else if d.month < 12 then Date(d.year, d.month + 1, 1)
    else Date(d.year + 1, 1, 1)
  }

  /**
   The dates from `lo` to `hi` inclusive, in the order the reconciliation
   loop `while current <= end_date: ...; current += timedelta(days=1)`
   visits them. Empty when `lo` is after `hi`.
   */
  function Window(lo: Date, hi: Date): (w: seq<Date>)
    requires ValidDate(lo) && ValidDate(hi)
    decreases Key(hi) - Key(lo)
  {
    if Before(hi, lo) then []
    else if lo == hi then [lo]
    else
      assert lo != MaxDate by { MaxDateIsLast(hi); }
      var next := NextDay(lo);
      KeyOrder(next, hi);
      KeyOrder(lo, next);
      [lo] + Window(next, hi)
  }

  /** A date is in the window exactly when it is a valid date between its ends. */
  lemma {:induction false} WindowMembers(lo: Date, hi: Date, d: Date)
    requires ValidDate(lo) && ValidDate(hi)
    ensures d in Window(lo, hi) <==> ValidDate(d) && NotAfter(lo, d) && NotAfter(d, hi)
    decreases Key(hi) - Key(lo)
  {
    if Before(hi, lo) || lo == hi {
    } else {
      assert lo != MaxDate by { MaxDateIsLast(hi); }
      var next := NextDay(lo);
      KeyOrder(next, hi);
      KeyOrder(lo, next);
      WindowMembers(next, hi, d);
    }
  }

  /** Every date of the window is valid and the window is strictly ascending. */
  lemma {:induction false} WindowAscending(lo: Date, hi: Date)
    requires ValidDate(lo) && ValidDate(hi)
    ensures forall i :: 0 <= i < |Window(lo, hi)| ==> ValidDate(Window(lo, hi)[i])
    ensures forall i, j :: 0 <= i < j < |Window(lo, hi)| ==> Before(Window(lo, hi)[i], Window(lo, hi)[j])
    decreases Key(hi) - Key(lo)
  {
    if Before(hi, lo) || lo == hi {
    } else {
      assert lo != MaxDate by { MaxDateIsLast(hi); }
      var next := NextDay(lo);
      KeyOrder(next, hi);
      KeyOrder(lo, next);
      WindowAscending(next, hi);
      var w := Window(lo, hi);
      assert w == [lo] + Window(next, hi);
      forall j | 0 < j < |w| ensures Before(lo, w[j]) {
        WindowMembers(next, hi, w[j]);
      }
    }
  }

  /** `d + timedelta(days=k)`, defined while it stays at or below `date.max`. */
  function Advance(d: Date, k: nat): (r: Option<Date>)
    requires ValidDate(d)
    ensures r.Some? ==> ValidDate(r.value) && NotAfter(d, r.value)
    decreases k
  {
    if k == 0 then Some(d)
    else if d == MaxDate then None
    else Advance(NextDay(d), k - 1)
  }

  /**
   A window opened `k` days before its last day holds exactly `k + 1`
   dates: the pass started at `today - k days` visits `k + 1` dates.
   */
  lemma {:induction false} WindowLength(d: Date, k: nat)
    requires ValidDate(d) && Advance(d, k).Some?
    ensures |Window(d, Advance(d, k).value)| == k + 1
    decreases k
  {
    var hi := Advance(d, k).value;
    if k == 0 {
    } else {
      var next := NextDay(d);
      WindowLength(next, k - 1);
      assert Advance(next, k - 1).value == hi;
      assert Before(d, hi);
      KeyOrder(d, hi);
    }
  }
}

=== FILE: pass_properties.dfy ===
/** What one reconciliation pass promises, stated on its specification. */
module PassProperties {

  import opened Wrappers
  import opened Dates
  import opened DateNames
  import opened Reconciler

  /**
   Gap filling: a pass fetches exactly the window's days whose file was
   absent, each once, in strictly ascending order.
   */
  lemma FetchesExactlyTheMissingDays<P>(files: map<string, P>, lo: Date, hi: Date)
    requires ValidDate(lo) && ValidDate(hi)
    ensures forall d :: d in PassFetches(files, lo, hi) <==>
      ValidDate(d) && NotAfter(lo, d) && NotAfter(d, hi) && CacheFileName(d) !in files
    ensures Ascending(PassFetches(files, lo, hi))
  {
    forall d ensures d in Window(lo, hi) <==> ValidDate(d) && NotAfter(lo, d) && NotAfter(d, hi) {
      WindowMembers(lo, hi, d);
    }
    WindowAscending(lo, hi);
    MissingDaysAscending(Window(lo, hi), files);
  }

  /** A window that starts after today is empty, so nothing is fetched or written. */
  lemma StartAfterTodayFetchesNothing<P>(files: map<string, P>, lo: Date, hi: Date, fetch: Date -> Option<P>)
    requires ValidDate(lo) && ValidDate(hi) && Before(hi, lo)
    ensures PassFetches(files, lo, hi) == []
    ensures PassFiles(files, lo, hi, fetch) == files
  {
    assert Window(lo, hi) == [];
  }

  /** A pass never removes or alters a file that was present. */
  lemma KeepsPresentFiles<P>(files: map<string, P>, lo: Date, hi: Date, fetch: Date -> Option<P>)
    requires ValidDate(lo) && ValidDate(hi)
    ensures forall n :: n in files ==> n in PassFiles(files, lo, hi, fetch) && PassFiles(files, lo, hi, fetch)[n] == files[n]
  {
    var fetched := PassFetches(files, lo, hi);
    forall n | n in Fills(fetched, fetch) ensures n !in files {
      assert NameDate(n).value in fetched;
    }
  }

  /**
   The only files a pass adds are those of fetched days whose fetch returned
   a document, and each such file holds that document.
   */
  lemma AddsOnlyFetchedDocuments<P>(files: map<string, P>, lo: Date, hi: Date, fetch: Date -> Option<P>)
    requires ValidDate(lo) && ValidDate(hi)
    ensures forall n :: n in PassFiles(files, lo, hi, fetch) && n !in files ==>
      NameDate(n).Some? && NameDate(n).value in PassFetches(files, lo, hi) &&
      fetch(NameDate(n).value).Some? && n == CacheFileName(NameDate(n).value)
    ensures forall d :: d in PassFetches(files, lo, hi) && fetch(d).Some? ==>
      PassFiles(files, lo, hi, fetch)[CacheFileName(d)] == fetch(d).value
  {
  }

  /**
   Failure isolation: a missing day whose fetch fails stays absent after the
   pass (`SuccessfulDaysCached` states what happens to the other days).
   */
  lemma FailedDayStaysAbsent<P>(files: map<string, P>, lo: Date, hi: Date, fetch: Date -> Option<P>, d: Date)
    requires ValidDate(lo) && ValidDate(hi) && ValidDate(d)
    requires CacheFileName(d) !in files && fetch(d).None?
    ensures CacheFileName(d) !in PassFiles(files, lo, hi, fetch)
  {
    var fetched := PassFetches(files, lo, hi);
    if CacheFileName(d) in Fills(fetched, fetch) {
      CacheFileNameRoundTrip(d);
      assert false;
    }
  }

  /**
   The next pass over the same window fetches exactly the days whose fetch
   failed in this one: the failures are retried and nothing else is.
   */
  lemma NextPassRetriesFailures<P>(files: map<string, P>, lo: Date, hi: Date, fetch: Date -> Option<P>)
    requires ValidDate(lo) && ValidDate(hi)
    ensures forall d :: d in PassFetches(PassFiles(files, lo, hi, fetch), lo, hi) <==>
      d in PassFetches(files, lo, hi) && fetch(d).None?
  {
    var after := PassFiles(files, lo, hi, fetch);
    FetchesExactlyTheMissingDays(files, lo, hi);
    FetchesExactlyTheMissingDays(after, lo, hi);
    forall d | ValidDate(d) && fetch(d).None? && CacheFileName(d) !in files
      ensures CacheFileName(d) !in after
    {
      FailedDayStaysAbsent(files, lo, hi, fetch, d);
    }
  }

  /**
   Failure isolation: after a pass, every day of the window is cached whose
   fetch succeeded or whose file was already present, whatever happened to
   the other days; a day that was missing holds its fetched document.
   */
  lemma SuccessfulDaysCached<P>(files: map<string, P>, lo: Date, hi: Date, fetch: Date -> Option<P>)
    requires ValidDate(lo) && ValidDate(hi)
    ensures forall d :: ValidDate(d) && NotAfter(lo, d) && NotAfter(d, hi) && (fetch(d).Some? || CacheFileName(d) in files) ==>
      CacheFileName(d) in PassFiles(files, lo, hi, fetch)
    ensures forall d :: ValidDate(d) && NotAfter(lo, d) && NotAfter(d, hi) && fetch(d).Some? && CacheFileName(d) !in files ==>
      PassFiles(files, lo, hi, fetch)[CacheFileName(d)] == fetch(d).value
  {
    var fetched := PassFetches(files, lo, hi);
    FetchesExactlyTheMissingDays(files, lo, hi);
    forall d | ValidDate(d) && NotAfter(lo, d) && NotAfter(d, hi) && fetch(d).Some? && CacheFileName(d) !in files
      ensures d in fetched
    {
      WindowMembers(lo, hi, d);
    }
  }

  /**
   Idempotence: after a pass in which every fetch it issued succeeded, a
   second pass over the same window fetches nothing and changes nothing,
   whatever its own fetches would return.
   */
  lemma SecondPassIsNoOp<P>(files: map<string, P>, lo: Date, hi: Date, fetch: Date -> Option<P>, fetch2: Date -> Option<P>)
    requires ValidDate(lo) && ValidDate(hi)
    requires forall d :: d in PassFetches(files, lo, hi) ==> fetch(d).Some?
    ensures PassFetches(PassFiles(files, lo, hi, fetch), lo, hi) == []
    ensures PassFiles(PassFiles(files, lo, hi, fetch), lo, hi, fetch2) == PassFiles(files, lo, hi, fetch)
  {
    var after := PassFiles(files, lo, hi, fetch);
    WindowCachedAfter(files, lo, hi, fetch);
    CachedWindowNoFetch(after, lo, hi);
    NoFetchNoChange(after, lo, hi, fetch2);
  }

  /** After a pass in which every fetch it issued succeeded, every window day is cached. */
  lemma WindowCachedAfter<P>(files: map<string, P>, lo: Date, hi: Date, fetch: Date -> Option<P>)
    requires ValidDate(lo) && ValidDate(hi)
    requires forall d :: d in PassFetches(files, lo, hi) ==> fetch(d).Some?
    ensures forall d :: ValidDate(d) && NotAfter(lo, d) && NotAfter(d, hi) ==> CacheFileName(d) in PassFiles(files, lo, hi, fetch)
  {
    FetchesExactlyTheMissingDays(files, lo, hi);
    SuccessfulDaysCached(files, lo, hi, fetch);
  }

  /** A pass over a window whose every day is cached fetches nothing. */
  lemma CachedWindowNoFetch<P>(files: map<string, P>, lo: Date, hi: Date)
    requires ValidDate(lo) && ValidDate(hi)
    requires forall d :: ValidDate(d) && NotAfter(lo, d) && NotAfter(d, hi) ==> CacheFileName(d) in files
    ensures PassFetches(files, lo, hi) == []
  {
    WindowAscending(lo, hi);
    forall d | d in Window(lo, hi) ensures ValidDate(d) && CacheFileName(d) in files {
      WindowMembers(lo, hi, d);
    }
    NothingMissing(Window(lo, hi), files);
  }

  /** A pass that fetches nothing changes no file. */
  lemma NoFetchNoChange<P>(files: map<string, P>, lo: Date, hi: Date, fetch: Date -> Option<P>)
    requires ValidDate(lo) && ValidDate(hi) && PassFetches(files, lo, hi) == []
    ensures PassFiles(files, lo, hi, fetch) == files
  {
    assert Fills<P>([], fetch) == map[];
    assert files + map[] == files;
  }

  /**
   The pass as written (`UpdateDmiCacheAsWritten`) raises at the earliest
   window day whose file is missing, and only there: it raises that error
   iff the window has a gap, and every window day before the one it names
   is cached.
   */
  lemma AsWrittenStopsAtFirstGap<P>(files: map<string, P>, lo: Date, hi: Date)
    requires ValidDate(lo) && ValidDate(hi)
    ensures var err := AsWrittenError(files, Some(lo), hi);
      (err.Some? && err.value.NoDateMethod?) <==>
        exists d :: ValidDate(d) && NotAfter(lo, d) && NotAfter(d, hi) && CacheFileName(d) !in files
    ensures var err := AsWrittenError(files, Some(lo), hi);
      err.Some? && err.value.NoDateMethod? ==>
        var g := err.value.day;
        ValidDate(g) && NotAfter(lo, g) && NotAfter(g, hi) && CacheFileName(g) !in files &&
        forall e :: ValidDate(e) && NotAfter(lo, e) && Before(e, g) ==> CacheFileName(e) in files
  {
    var missing := PassFetches(files, lo, hi);
    FetchesExactlyTheMissingDays(files, lo, hi);
    if missing != [] {
      FirstMissingIsEarliest(files, lo, hi);
    } else {
      assert forall d :: ValidDate(d) && NotAfter(lo, d) && NotAfter(d, hi) ==> CacheFileName(d) in files;
    }
  }

  /** The first day a pass would fetch is the earliest missing day of its window. */
  lemma FirstMissingIsEarliest<P>(files: map<string, P>, lo: Date, hi: Date)
    requires ValidDate(lo) && ValidDate(hi) && PassFetches(files, lo, hi) != []
    ensures var g := PassFetches(files, lo, hi)[0];
      ValidDate(g) && NotAfter(lo, g) && NotAfter(g, hi) && CacheFileName(g) !in files &&
      forall e :: ValidDate(e) && NotAfter(lo, e) && Before(e, g) ==> CacheFileName(e) in files
  {
    var missing := PassFetches(files, lo, hi);
    FetchesExactlyTheMissingDays(files, lo, hi);
    var g := missing[0];
    assert g in missing;
    forall e | ValidDate(e) && NotAfter(lo, e) && Before(e, g)
      ensures CacheFileName(e) in files
    {
      if CacheFileName(e) !in files {
        KeyOrder(e, g);
        KeyOrder(g, e);
        KeyOrder(g, hi);
        KeyOrder(e, hi);
        HeadIsEarliest(missing, e);
        assert false;
      }
    }
  }

  /** The head of an ascending list is no later than any of its members. */
  lemma HeadIsEarliest(ds: seq<Date>, e: Date)
    requires Ascending(ds) && e in ds
    ensures ds[0] == e || Before(ds[0], e)
  {
    var i :| 0 <= i < |ds| && ds[i] == e;
    if i > 0 {
      assert Before(ds[0], ds[i]);
    }
  }

  /**
   The discrepancy, on one input: an empty cache directory and start = today
   = 2024-01-05. The pass as written raises `AttributeError` for that day and
   stores nothing, whereas the pass as intended fetches the day and, when
   the upstream answers, stores its document.
   */
  lemma AsWrittenCrashExample(fetch: Date -> Option<int>)
    requires fetch(Date(2024, 1, 5)) == Some(7)
    ensures AsWrittenError<int>(map[], Some(Date(2024, 1, 5)), Date(2024, 1, 5)) == Some(NoDateMethod(Date(2024, 1, 5)))
    ensures PassFetches<int>(map[], Date(2024, 1, 5), Date(2024, 1, 5)) == [Date(2024, 1, 5)]
    ensures var after := PassFiles(map[], Date(2024, 1, 5), Date(2024, 1, 5), fetch);
      CacheFileName(Date(2024, 1, 5)) in after && after[CacheFileName(Date(2024, 1, 5))] == 7
  {
    OneDayWindow<int>(map[], Date(2024, 1, 5));
    AddsOnlyFetchedDocuments(map[], Date(2024, 1, 5), Date(2024, 1, 5), fetch);
  }

  /** A one-day window whose file is missing fetches exactly that day. */
  lemma OneDayWindow<P>(files: map<string, P>, d: Date)
    requires ValidDate(d) && CacheFileName(d) !in files
    ensures PassFetches(files, d, d) == [d]
  {
    var none: seq<Date> := [];
    assert none + [d] == [d];
    assert Window(d, d) == [d];
    MissingDaysSnoc(none, d, files);
  }

  /**
   A pass whose start is `k` days before today over an empty directory with
   an upstream that always fails issues `k + 1` fetches and writes nothing.
   */
  lemma FailingUpstreamLeavesStoreEmpty<P>(lo: Date, k: nat, fetch: Date -> Option<P>)
    requires ValidDate(lo) && Advance(lo, k).Some?
    requires forall d :: fetch(d) == None
    ensures |PassFetches<P>(map[], lo, Advance(lo, k).value)| == k + 1
    ensures PassFiles(map[], lo, Advance(lo, k).value, fetch) == map[]
  {
    var hi := Advance(lo, k).value;
    WindowLength(lo, k);
    WindowAscending(lo, hi);
    MissingDaysAll<P>(Window(lo, hi));
  }

  /** When every day of a list has its file, none is missing. */
  lemma {:induction false} NothingMissing<P>(ds: seq<Date>, files: map<string, P>)
    requires AllValid(ds)
    requires forall d :: d in ds ==> CacheFileName(d) in files
    ensures MissingDays(ds, files) == []
  {
    if ds != [] {
      NothingMissing(ds[..|ds| - 1], files);
    }
  }

  /** Over an empty directory every day of a list is missing. */
  lemma {:induction false} MissingDaysAll<P>(ds: seq<Date>)
    requires AllValid(ds)
    ensures MissingDays<P>(ds, map[]) == ds
  {
    if ds != [] {
      assert ds[..|ds| - 1] + [ds[|ds| - 1]] == ds;
      MissingDaysAll<P>(ds[..|ds| - 1]);
    }
  }

  /** The worked case: today 2024-03-01 and a start three days earlier cross a leap day. */
  lemma LeapWindowExample()
    ensures Advance(Date(2024, 2, 27), 3) == Some(Date(2024, 3, 1))
    ensures Window(Date(2024, 2, 27), Date(2024, 3, 1)) ==
      [Date(2024, 2, 27), Date(2024, 2, 28), Date(2024, 2, 29), Date(2024, 3, 1)]
  {
    assert NextDay(Date(2024, 2, 27)) == Date(2024, 2, 28);
    assert NextDay(Date(2024, 2, 28)) == Date(2024, 2, 29);
    assert NextDay(Date(2024, 2, 29)) == Date(2024, 3, 1);
  }
}

=== FILE: reconciler.dfy ===
/**
 The cache reconciler: one pass of `update_dmi_cache`, which walks every
 day from the configured start date to today, fetches each day whose file
 is missing and stores the documents that arrive. The HTTP fetch is an
 oracle `fetch: Date -> Option<P>` (`None` for any failure), and the start
 date and today's date are parameters.
 */
module Reconciler {

  import opened Wrappers
  import opened Dates
  import opened DateNames
  import opened CacheStore

  /** The exceptions that end a pass early. */
  datatype PassError =
    | NoCacheDir                // `FileNotFoundError`: `os.makedirs("")`
    | NoDateMethod(day: Date)  // `AttributeError`: `date.date()` on a `datetime.date`
    | DateOverflow              // `OverflowError`: stepping past `date.max`

  ghost predicate AllValid(ds: seq<Date>) {
    forall d :: d in ds ==> ValidDate(d)
  }

  ghost predicate Ascending(ds: seq<Date>) {
    forall i, j :: 0 <= i < j < |ds| ==> Before(ds[i], ds[j])
  }

  /** The days of `ds`, in order, whose cache file is absent from `files`. */
  function MissingDays<P>(ds: seq<Date>, files: map<string, P>): (missing: seq<Date>)
    requires AllValid(ds)
    ensures forall d :: d in missing <==> d in ds && CacheFileName(d) !in files
  {
    if ds == [] then []
    else
      var last := ds[|ds| - 1];
      assert forall d :: d in ds <==> d in ds[..|ds| - 1] || d == last;
      MissingDays(ds[..|ds| - 1], files) + (if CacheFileName(last) in files then [] else [last])
  }

  /**
   The files written for the fetched days `ds`: each day whose fetch
   returned a document gets its file holding that document.
   */
  function Fills<P>(ds: seq<Date>, fetch: Date -> Option<P>): (written: map<string, P>)
    requires AllValid(ds)
    ensures forall d :: d in ds && fetch(d).Some? ==>
      CacheFileName(d) in written && written[CacheFileName(d)] == fetch(d).value
    ensures forall n :: n in written ==>
      NameDate(n).Some? && NameDate(n).value in ds && fetch(NameDate(n).value).Some? && n == CacheFileName(NameDate(n).value)
  {
    if ds == [] then map[]
    else
      var init, last := ds[..|ds| - 1], ds[|ds| - 1];
      var earlier := Fills(init, fetch);
      assert forall d :: d in ds ==> d in init || d == last;
      if fetch(last).Some? then
        var written := earlier[CacheFileName(last) := fetch(last).value];
        assert forall d :: d in init && fetch(d).Some? && d != last ==> written[CacheFileName(d)] == earlier[CacheFileName(d)] by {
          forall d | d in init && fetch(d).Some? && d != last
            ensures written[CacheFileName(d)] == earlier[CacheFileName(d)]
          {
            CacheFileNameInjective(d, last);
          }
        }
        CacheFileNameRoundTrip(last);
        written
      else earlier
  }

  /** The days one pass over `[lo, hi]` fetches, given the files present when it starts. */
  function PassFetches<P>(files: map<string, P>, lo: Date, hi: Date): (fetched: seq<Date>)
    requires ValidDate(lo) && ValidDate(hi)
    ensures AllValid(fetched)
  {
    WindowAscending(lo, hi);
    MissingDays(Window(lo, hi), files)
  }

  /** The directory's files after one pass over `[lo, hi]`. */
  function PassFiles<P>(files: map<string, P>, lo: Date, hi: Date, fetch: Date -> Option<P>): (after: map<string, P>)
    requires ValidDate(lo) && ValidDate(hi)
    ensures files.Keys <= after.Keys
  {
    files + Fills(PassFetches(files, lo, hi), fetch)
  }

  /** Keeping the days of a list that pass a filter keeps them ascending. */
  lemma {:induction false} MissingDaysAscending<P>(ds: seq<Date>, files: map<string, P>)
    requires AllValid(ds) && Ascending(ds)
    ensures Ascending(MissingDays(ds, files))
  {
    if ds != [] {
      var init := ds[..|ds| - 1];
      var last := ds[|ds| - 1];
      MissingDaysAscending(init, files);
      var m := MissingDays(init, files);
      forall i | 0 <= i < |m| ensures Before(m[i], last) {
        assert m[i] in init;
      }
    }
  }

  /** A file name the fills of earlier days cannot hold: that of a later day. */
  lemma FillsMissLaterDay<P>(ds: seq<Date>, fetch: Date -> Option<P>, c: Date)
    requires AllValid(ds) && ValidDate(c)
    requires forall d :: d in ds ==> Before(d, c)
    ensures CacheFileName(c) !in Fills(ds, fetch)
  {
    if CacheFileName(c) in Fills(ds, fetch) {
      CacheFileNameRoundTrip(c);
      assert false;
    }
  }

  /** One more visited day extends the missing days by that day, if missing. */
  lemma MissingDaysSnoc<P>(ds: seq<Date>, c: Date, files: map<string, P>)
    requires AllValid(ds) && ValidDate(c)
    ensures MissingDays(ds + [c], files) == MissingDays(ds, files) + (if CacheFileName(c) in files then [] else [c])
  {
    assert (ds + [c])[..|ds|] == ds;
  }

  /** The missing days of two lists in a row are those of each list in turn. */
  lemma {:induction false} MissingDaysAppend<P>(a: seq<Date>, b: seq<Date>, files: map<string, P>)
    requires AllValid(a) && AllValid(b)
    ensures AllValid(a + b)
    ensures MissingDays(a + b, files) == MissingDays(a, files) + MissingDays(b, files)
  {
    assert AllValid(a + b) by {
      assert forall d :: d in a + b ==> d in a || d in b;
    }
    if b == [] {
      assert a + b == a;
    } else {
      var init, last := b[..|b| - 1], b[|b| - 1];
      assert b == init + [last];
      assert AllValid(init) by {
        assert forall d :: d in init ==> d in b;
      }
      MissingDaysAppend(a, init, files);
      AppendStep(a, init, last, files);
    }
  }

  /** The inductive step of `MissingDaysAppend`: one more day at the end of `b`. */
  lemma AppendStep<P>(a: seq<Date>, init: seq<Date>, last: Date, files: map<string, P>)
    requires AllValid(a) && AllValid(init) && ValidDate(last)
    requires MissingDays(a + init, files) == MissingDays(a, files) + MissingDays(init, files)
    ensures MissingDays(a + (init + [last]), files) == MissingDays(a, files) + MissingDays(init + [last], files)
  {
    var tail := if CacheFileName(last) in files then [] else [last];
    var front, whole := a + init, init + [last];
    AppendAssoc(a, init, [last]);
    assert AllValid(front) by {
      assert forall d :: d in front ==> d in a || d in init;
    }
    MissingDaysSnoc(front, last, files);
    MissingDaysSnoc(init, last, files);
    AppendAssoc(MissingDays(a, files), MissingDays(init, files), tail);
  }

  /**
   The fetches a pass issues from day `c` on: `c` itself when its file is
   missing, then those from the next day on.
   */
  lemma FetchesFront<P>(files: map<string, P>, c: Date, hi: Date)
    requires ValidDate(c) && ValidDate(hi) && NotAfter(c, hi)
    ensures c == MaxDate ==> c == hi
    ensures PassFetches(files, c, hi) ==
      (if CacheFileName(c) in files then [] else [c]) + (if c == MaxDate then [] else PassFetches(files, NextDay(c), hi))
  {
    var none: seq<Date> := [];
    assert none + [c] == [c];
    MissingDaysSnoc(none, c, files);
    WindowStep(c, hi);
    if c != MaxDate {
      WindowAscending(NextDay(c), hi);
      MissingDaysAppend([c], Window(NextDay(c), hi), files);
    } else {
      var head := if CacheFileName(c) in files then [] else [c];
      assert head + [] == head;
    }
  }

  /** A pass whose current day is past `hi` has nothing left to fetch. */
  lemma FetchesPast<P>(files: map<string, P>, c: Date, hi: Date)
    requires ValidDate(c) && ValidDate(hi) && !NotAfter(c, hi)
    ensures PassFetches(files, c, hi) == []
  {
    KeyOrder(c, hi);
  }

  /**
   The loop's bookkeeping for one visited day `c`: the fetches already issued
   followed by those still to come are unchanged when `c` moves from the
   second part to the first.
   */
  lemma FetchStep<P>(fetched: seq<Date>, files: map<string, P>, c: Date, hi: Date)
    requires ValidDate(c) && ValidDate(hi) && NotAfter(c, hi)
    ensures var now := if CacheFileName(c) in files then fetched else fetched + [c];
      && (c == MaxDate ==> fetched + PassFetches(files, c, hi) == now)
      && (c != MaxDate ==> fetched + PassFetches(files, c, hi) == now + PassFetches(files, NextDay(c), hi))
  {
    FetchesFront(files, c, hi);
    var head := if CacheFileName(c) in files then [] else [c];
    var rest := if c == MaxDate then [] else PassFetches(files, NextDay(c), hi);
    AppendAssoc(fetched, head, rest);
    assert fetched + [] == fetched;
  }

  /** Every day fetched so far precedes the next day once `c` is visited. */
  lemma LaterStep(fetched: seq<Date>, c: Date)
    requires ValidDate(c) && c != MaxDate
    requires forall d :: d in fetched ==> Before(d, c)
    ensures forall d :: d in fetched + [c] ==> Before(d, NextDay(c))
  {
    forall d | d in fetched + [c] ensures Before(d, NextDay(c)) {
      if d != c {
        BeforeTransitive(d, c, NextDay(c));
      }
    }
  }

  /** One more fetched day adds its file when its fetch returned a document. */
  lemma FillsSnoc<P>(ds: seq<Date>, c: Date, fetch: Date -> Option<P>)
    requires AllValid(ds) && ValidDate(c)
    ensures Fills(ds + [c], fetch) ==
      if fetch(c).Some? then Fills(ds, fetch)[CacheFileName(c) := fetch(c).value] else Fills(ds, fetch)
  {
    assert (ds + [c])[..|ds|] == ds;
  }

  lemma AppendAssoc<T>(a: seq<T>, b: seq<T>, c: seq<T>)
    ensures a + (b + c) == (a + b) + c
  {
  }

  lemma UnionUpdate<K, V>(m: map<K, V>, n: map<K, V>, k: K, v: V)
    ensures (m + n)[k := v] == m + n[k := v]
  {
  }

  /** The window from a day on starts with that day and goes on from the next. */
  lemma WindowStep(c: Date, hi: Date)
    requires ValidDate(c) && ValidDate(hi) && NotAfter(c, hi)
    ensures c == MaxDate ==> c == hi && Window(c, hi) == [c]
    ensures c != MaxDate ==> Window(c, hi) == [c] + Window(NextDay(c), hi)
  {
    MaxDateIsLast(hi);
  }

  /**
   The store's bookkeeping for one visited day `c`, later than every day
   fetched so far: its file is present iff it was when the pass began, and
   fetching it adds its file exactly when the fetch returns a document.
   */
  lemma FillStep<P>(files0: map<string, P>, fetched: seq<Date>, c: Date, fetch: Date -> Option<P>)
    requires AllValid(fetched) && ValidDate(c)
    requires forall d :: d in fetched ==> Before(d, c)
    ensures AllValid(fetched + [c])
    ensures CacheFileName(c) in files0 + Fills(fetched, fetch) <==> CacheFileName(c) in files0
    ensures fetch(c).Some? ==>
      (files0 + Fills(fetched, fetch))[CacheFileName(c) := fetch(c).value] == files0 + Fills(fetched + [c], fetch)
    ensures fetch(c).None? ==> files0 + Fills(fetched, fetch) == files0 + Fills(fetched + [c], fetch)
  {
    FillsMissLaterDay(fetched, fetch, c);
    FillsSnoc(fetched, c, fetch);
    if fetch(c).Some? {
      UnionUpdate(files0, Fills(fetched, fetch), CacheFileName(c), fetch(c).value);
    }
  }

  /**
   One iteration of the pass's loop, as intended: a day whose file is
   missing is fetched, and saved when the fetch returns a document.
   `fetchedDay` tells whether the fetch was issued.
   */
  method VisitDay<P>(store: DayStore<P>, d: Date, fetch: Date -> Option<P>) returns (fetchedDay: bool)
    requires store.Valid() && store.dirExists && ValidDate(d)
    modifies store
    ensures store.Valid() && store.dirExists
    ensures fetchedDay <==> CacheFileName(d) !in old(store.files)
    ensures store.files ==
      if fetchedDay && fetch(d).Some? then old(store.files)[CacheFileName(d) := fetch(d).value] else old(store.files)
  {
    var cached := store.IsDayCached(d);
    fetchedDay := !cached;
    if fetchedDay {
      var data := fetch(d);
      if data.Some? {
        var _ := store.SaveDayCache(d, data.value);
      }
    }
  }

  /**
   `update_dmi_cache()` as intended, with `_fetch_dmi_day` logging the date
   itself so that the request is made (`UpdateDmiCacheAsWritten` is the pass
   as written). Without a start date it does nothing. Otherwise it
   creates the directory, and raises `FileNotFoundError` when the directory
   name is empty. It then visits each day of `[start, today]` in ascending
   order; a day whose file is missing is fetched once, and saved when the
   fetch returns a document. `fetched` lists the fetches issued, in order.
   The only other error is the `OverflowError` of stepping past `date.max`
   after the window's last day, which ends the pass with its writes made.
   */
  method UpdateDmiCache<P>(store: DayStore<P>, start: Option<Date>, today: Date, fetch: Date -> Option<P>)
    returns (fetched: seq<Date>, err: Option<PassError>)
    requires store.Valid() && ValidDate(today)
    requires start.Some? ==> ValidDate(start.value)
    modifies store
    ensures store.Valid()
    ensures start.None? ==>
      && fetched == [] && err == None
      && store.dirExists == old(store.dirExists) && store.files == old(store.files)
    ensures start.Some? && store.dir == [] ==>
      && fetched == [] && err == Some(NoCacheDir)
      && store.dirExists == old(store.dirExists) && store.files == old(store.files)
    ensures start.Some? && store.dir != [] ==>
      && store.dirExists
      && fetched == PassFetches(old(store.files), start.value, today)
      && store.files == PassFiles(old(store.files), start.value, today, fetch)
      && (err.Some? <==> NotAfter(start.value, today) && today == MaxDate)
    ensures err == None || err == Some(NoCacheDir) || err == Some(DateOverflow)
  {
    fetched, err := [], None;
    if start.None? {
      return;
    }
    var made := store.EnsureCacheDir();
    if !made {
      err := Some(NoCacheDir);
      return;
    }
    var overflow;
    fetched, overflow := VisitWindow(store, start.value, today, fetch);
    if overflow {
      err := Some(DateOverflow);
    }
  }

  /**
   The loop of the intended pass, over an existing directory: each day of
   `[start, today]` is visited in ascending order (`VisitDay`), and
   `overflow` reports the `OverflowError` of stepping past `date.max` after
   the window's last day.
   */
  method VisitWindow<P>(store: DayStore<P>, start: Date, today: Date, fetch: Date -> Option<P>)
    returns (fetched: seq<Date>, overflow: bool)
    requires store.Valid() && store.dirExists && ValidDate(start) && ValidDate(today)
    modifies store
    ensures store.Valid() && store.dirExists
    ensures fetched == PassFetches(old(store.files), start, today)
    ensures store.files == PassFiles(old(store.files), start, today, fetch)
    ensures overflow <==> NotAfter(start, today) && today == MaxDate
  {
    fetched, overflow := [], false;
    ghost var files0 := store.files;
    var current := start;
    assert fetched + PassFetches(files0, current, today) == PassFetches(files0, current, today);
    while NotAfter(current, today)
      invariant ValidDate(current) && store.Valid() && store.dirExists
      invariant AllValid(fetched) && forall d :: d in fetched ==> Before(d, current)
      invariant PassFetches(files0, start, today) == fetched + PassFetches(files0, current, today)
      invariant store.files == files0 + Fills(fetched, fetch)
      invariant !overflow
      decreases Key(today) - Key(current)
    {
      KeyOrder(current, today);
      FetchStep(fetched, files0, current, today);
      FillStep(files0, fetched, current, fetch);
      if current != MaxDate {
        LaterStep(fetched, current);
      }
      var fetchedDay := VisitDay(store, current, fetch);
      if fetchedDay {
        fetched := fetched + [current];
      }
      assert store.files == files0 + Fills(fetched, fetch);
      if current == MaxDate {
        FetchesFront(files0, current, today);
        MaxDateIsLast(start);
        overflow := true;
        return;
      }
      var next := NextDay(current);
      KeyOrder(current, next);
      current := next;
    }
    MaxDateIsLast(current);
    FetchesPast(files0, current, today);
    assert fetched + [] == fetched;
  }


  /**
   The error the pass as written raises, given the files present when it
   starts: at the first window day whose file is missing, `_fetch_dmi_day`
   evaluates `date.date()` on a `datetime.date`, before any request and again
   in its `except` handler, so `AttributeError` escapes; with no gap, only the
   step past `date.max` can raise.
   */
  function AsWrittenError<P>(files: map<string, P>, start: Option<Date>, today: Date): (err: Option<PassError>)
    requires ValidDate(today) && (start.Some? ==> ValidDate(start.value))
    ensures err.Some? ==> start.Some?
  {
    if start.None? then None
    else
      var missing := PassFetches(files, start.value, today);
      if missing != [] then Some(NoDateMethod(missing[0]))
      else if NotAfter(start.value, today) && today == MaxDate then Some(DateOverflow)
      else None
  }

  /**
   `update_dmi_cache()` as written: the call of `_fetch_dmi_day` at the first
   window day whose file is missing raises `AttributeError`, so the pass ends
   there with no request made and no file written. No fetch oracle is needed:
   the request is never reached. An empty directory name makes the pass
   raise `FileNotFoundError` before its loop, as in the intended pass.
   */
  method UpdateDmiCacheAsWritten<P>(store: DayStore<P>, start: Option<Date>, today: Date)
    returns (err: Option<PassError>)
    requires store.Valid() && ValidDate(today)
    requires start.Some? ==> ValidDate(start.value)
    modifies store
    ensures store.Valid() && store.files == old(store.files)
    ensures start.None? || store.dir == [] ==> store.dirExists == old(store.dirExists)
    ensures start.Some? && store.dir != [] ==> store.dirExists
    ensures start.None? ==> err == None
    ensures start.Some? && store.dir == [] ==> err == Some(NoCacheDir)
    ensures store.dir != [] ==> err == AsWrittenError(old(store.files), start, today)
  {
    err := None;
    if start.None? {
      return;
    }
    var made := store.EnsureCacheDir();
    if !made {
      err := Some(NoCacheDir);
      return;
    }
    ghost var files0 := store.files;
    var current := start.value;
    while NotAfter(current, today)
      invariant ValidDate(current) && store.Valid() && store.dirExists && store.files == files0
      invariant PassFetches(files0, start.value, today) == PassFetches(files0, current, today)
      invariant err == None
      decreases Key(today) - Key(current)
    {
      KeyOrder(current, today);
      FetchesFront(files0, current, today);
      var cached := store.IsDayCached(current);
      if !cached {
        err := Some(NoDateMethod(current));
        return;
      }
      if current == MaxDate {
        MaxDateIsLast(start.value);
        err := Some(DateOverflow);
        return;
      }
      var next := NextDay(current);
      KeyOrder(current, next);
      current := next;
    }
    MaxDateIsLast(current);
    FetchesPast(files0, current, today);
  }

}

=== FILE: wrappers.dfy ===
/** The optional value used wherever the cache returns "a value or None". */
module Wrappers {

  datatype Option<+T> = None | Some(value: T)
}
